=== FILE: README.md ===
# Rule-based answer checker for data-structure questions

This project models the validation core of `chatgpt-auto-inputs.py`. The script
asks a chat agent questions about four data structures: a graph, a binary search
tree, a linked list and a queue. It then judges each answer with fixed keyword
rules against a fixed baseline. The model covers these parts:

- **Baseline seeding** (`update_initial_values`). One seed list overwrites the
  baseline of all four kinds. Graph and tree nodes become the set of the seed.
  Graph edges become the ordered pairs of neighbouring seed values. The tree root
  becomes the first value. The list and the queue become copies of the seed.
- **Payload extraction** (`clean_json`). The text from the first `{` to the last
  `}` goes to a JSON parser. The result is `None` when a brace is missing or when
  the parser rejects the slice.
- **The rule validators** (`validate_graph_operation`, `validate_tree_operation`,
  `validate_linked_list_operation`, `validate_queue_operation`) and the dispatcher
  `validate_response`. Each returns a verdict and a reason string that is fixed
  per rule.
- **The result counter** (`ValidationResults.add_result`).
- **The non-existing pool filter** used by question generation.

Modules:

- `Text`: substring membership, ASCII lowercasing, `find` and `rfind`.
- `Extract`: the payload and `clean_json`.
- `Baseline`: the tracker state and its seeding.
- `Validate`: the validators.
- `Rules`: what the validators promise across kinds, and readable summaries of single branches.
- `RuleTable`: the validators written again as data. Each kind has a priority list of (label test, check) rules and one evaluator.
- `Agreement`: proofs that each hand-written validator gives the same verdict as its table, for every input.
- `Tally`: the result counter.
- `Pools`: the pool filter.
- `Scenarios`: concrete runs and the seeding finding.

The full contract of each validator is its `Agreement` lemma: for every input, the validator gives the verdict of its rule table. Most `Rules` lemmas about a single branch only spell out one row of that table and serve as documentation. The lemmas that go beyond a single table row (`ReasonIgnoresPayload`, `GraphReasonIgnoresPayload`, `PermissiveNeverFails`, `QueueIgnoresOperands`, `GraphSelfLoopReach`) state facts no single table row shows.

Abstractions:

- `json.loads` and Python's `str()` of the parsed object are not modelled. They
  enter as a function `parse: string -> Option<Payload>`. A `Payload` holds the
  rendered text, which every keyword check searches. It also holds the
  `graphUpdate.edges` list. Python renders an empty dict as `{}`, so "the payload
  is the empty object" is modelled as "its text is `{}`".
- Exceptions that the validators raise and do not catch are modelled as a
  `Raised(fault)` verdict. Examples are unpacking the two graph-insert operands,
  `values[0]` on an empty operand list, and a malformed edge list.

The validators are pure functions of the baseline, the label, the operands and
the payload. Validating twice with the same arguments therefore gives the same
verdict.

Points of the code that are easy to misread:

- The graph edge check compares the ordered pair (node1, node2), not an
  unordered pair.
- The permissive default reason is "Operation appears valid".
- An absent payload gives the reason "Invalid JSON response".
- Some keyword checks are case-sensitive (`'edges'`, `'pathExists'`,
  `'structure'`, `'dequeuedValue'`, `'updatedQueue'`, `'message'`). The others
  search the lowercased text.
- The linked-list rules apply to any Insert, Delete or Update label. The position
  check applies only when the lowercased label contains `position`.

## Model

| member | source | states |
|---|---|---|
| Text.LowerCharacterised | chatgpt-auto-inputs.py:101 | `str.lower()` on ASCII keeps the length and leaves no capital letter. Each capital moves 32 code points down to its small letter, and every other character is kept. |
| Text.LowerIdempotent | chatgpt-auto-inputs.py:101 | Lowering an already lowered text changes nothing. |
| Text.MissingCharNotContained | chatgpt-auto-inputs.py:86-188 | `w in s` fails when `w` holds a character that `s` lacks. |
| Text.ContainsInfix | chatgpt-auto-inputs.py:97 | A word placed between two pieces of text is `in` the result. |
| Text.Find | chatgpt-auto-inputs.py:78 | `find('{')` is -1 exactly when the character is absent. Otherwise it is the index of an occurrence with none before it. |
| Text.RFind | chatgpt-auto-inputs.py:79 | `rfind('}')` is -1 exactly when the character is absent. Otherwise it is the index of an occurrence with none after it. |
| Text.ContainsLowered | chatgpt-auto-inputs.py:101 | A lowercase keyword found case-sensitively is also found in the lowercased text. So each `.lower()` check accepts everything the plain check accepts. |
| Extract.BraceSlice | chatgpt-auto-inputs.py:77-81 | There is no slice exactly when `{` or `}` is missing. The slice is empty exactly when every `}` precedes every `{`. Otherwise the slice occurs in the response, starts with `{` at the first `{`, and ends with `}` at the last `}`. |
| Extract.CleanJson | chatgpt-auto-inputs.py:75-84 | The result is `None` when a brace is missing. Whenever both braces occur, the result is the parse of the brace slice, so it is `None` for reversed braces when the parser rejects the empty string. |
| Baseline.Links | chatgpt-auto-inputs.py:69 | The graph edges hold every ordered pair of neighbouring seed values and nothing else. |
| Baseline.ElementsCount | chatgpt-auto-inputs.py:68-70 | `set(values)` has at most `len(values)` elements, and exactly that many when no value repeats. |
| Baseline.LinksCount | chatgpt-auto-inputs.py:69 | A seed of n values gives at most n-1 edges, and exactly n-1 when no value repeats. |
| Baseline.Seed | chatgpt-auto-inputs.py:64-73 | Seeding overwrites the baseline of every kind, whatever the prior state held. An empty seed raises `IndexError`. |
| Baseline.SeedSnapshot | chatgpt-auto-inputs.py:64-73 | For a seed of distinct values, both node sets equal the seed in membership and cardinality. There are n-1 edges, the root is the first value, and the list and queue are the seed itself. |
| Baseline.SeedAsWritten | chatgpt-auto-inputs.py:369-373 | Seeding the four pools in turn leaves every kind with the queue pool's baseline. It raises `IndexError` exactly when some pool is empty. |
| Baseline.Initialize | chatgpt-auto-inputs.py:64-73 | Per-kind seeding sets that kind's baseline from the seed and leaves the other three kinds unchanged. Only an empty tree seed raises. |
| Baseline.SeedEachKind | chatgpt-auto-inputs.py:369-373 | Corrected seeding: each kind's baseline comes from its own pool. |
| Validate.ValidateGraph | chatgpt-auto-inputs.py:86-111 | An unusable payload gives (False, "Invalid JSON response") before any rule runs. Faults arise only under Insert or Delete labels. Every failing verdict carries one of the graph rules' reasons. |
| Validate.ValidateTree | chatgpt-auto-inputs.py:113-136 | An unusable payload is invalid. The validator raises `IndexError` exactly when a Search, Find, Insert or Delete label comes with no operand. |
| Validate.ValidateLinkedList | chatgpt-auto-inputs.py:138-166 | An unusable payload is invalid. The validator raises exactly when a position label under Insert, Delete or Update has no operand. |
| Validate.ValidateQueue | chatgpt-auto-inputs.py:168-188 | An unusable payload is invalid. The queue validator never raises, and its permissive default never fails. |
| Validate.ValidateKind | chatgpt-auto-inputs.py:190-199 | For every kind, an unusable payload gives (False, "Invalid JSON response"). |
| Validate.ValidateResponse | chatgpt-auto-inputs.py:190-200 | An unknown structure name gives (False, "Unknown structure type") whatever the response. For a known kind, a missing brace or reversed braces give (False, "Invalid JSON response"). Only graph, tree and list validation can raise. |
| Rules.EmptyObjectInvalid | chatgpt-auto-inputs.py:88-90 | The empty object `{}` is invalid for every kind and every label. |
| Rules.NoBracesInvalid | chatgpt-auto-inputs.py:75-90 | A response lacking a brace fails every known kind with "Invalid JSON response", whatever the label and operands. |
| Rules.GraphInsertListedEdge | chatgpt-auto-inputs.py:92-99 | Take an Insert of two baseline nodes whose text mentions `edges`. It passes exactly when some listed edge has `from` = node1 and `to` = node2, so the pair is ordered. |
| Rules.GraphInsertWithoutEdges | chatgpt-auto-inputs.py:95-99 | An Insert of two baseline nodes whose text never mentions `edges` falls through to (True, "Operation appears valid"). |
| Rules.GraphSelfLoopReach | chatgpt-auto-inputs.py:95-101 | The self-loop reason appears if and only if the label is Insert, the two operands are equal, and the node is not in the baseline. |
| Rules.GraphInsertOtherwisePermissive | chatgpt-auto-inputs.py:95-111 | An Insert of two different operands that are not both nodes passes by default. |
| Rules.GraphInsertArity | chatgpt-auto-inputs.py:94 | Insert raises an unpacking error exactly when there are not two operands. |
| Rules.GraphDeleteRule | chatgpt-auto-inputs.py:103-106 | Delete passes when the text has `message` and its lowercase form has `not exist`. Otherwise it passes exactly when the first operand is not a baseline node. It raises only when that operand is missing. |
| Rules.GraphPathRule | chatgpt-auto-inputs.py:108-109 | A Check label, or a label with `path` in any case, passes exactly when `pathExists` occurs case-sensitively. |
| Rules.TreeSearchAgrees | chatgpt-auto-inputs.py:119-123 | Search/Find passes exactly when the answer's claim that the value was found agrees with baseline membership. The claim is `found` and `true` in the lowercased text. |
| Rules.TreeInsertRule | chatgpt-auto-inputs.py:125-128 | Inserting a baseline value needs `error` in the lowercased text. Inserting a new value needs `structure`. |
| Rules.DuplicateReportedVerbatim | chatgpt-auto-inputs.py:125-127 | An answer that writes `error` verbatim passes a duplicate tree Insert, because the lowercased search accepts every plain occurrence of a lowercase keyword. |
| Rules.TreeDeleteRule | chatgpt-auto-inputs.py:130-134 | Deleting a missing value needs `not found` in the lowercased text. Deleting a baseline value needs `structure`. |
| Rules.LinkedListRule | chatgpt-auto-inputs.py:144-166 | For Insert, Delete and Update, a position label whose first operand is at least the baseline length needs `out of bounds`. Any other such label needs `structure`. Every other label passes. |
| Rules.QueueRule | chatgpt-auto-inputs.py:174-188 | The queue rules in priority order. Dequeue needs `empty` when the baseline is empty, else `dequeuedValue`. Then Enqueue needs `updatedQueue`. Then Display needs `queue`. Then Check or `exists` needs `exists`. Otherwise the label passes. |
| Rules.DequeueFromEmpty | chatgpt-auto-inputs.py:174-176 | With an empty baseline queue, Dequeue passes exactly when the lowercased text mentions `empty`. |
| Rules.QueueIgnoresOperands | chatgpt-auto-inputs.py:198-199 | The queue verdict does not depend on the operand list. |
| Rules.ReasonIgnoresPayload | chatgpt-auto-inputs.py:113-188 | For tree, list and queue, two usable payloads can change the verdict but never the reason or the raised fault. |
| Rules.GraphReasonIgnoresPayload | chatgpt-auto-inputs.py:86-111 | The same holds for graphs when the payloads agree on mentioning `edges` and on reporting a missing node, and both edge lists are well formed. |
| Rules.PermissiveNeverFails | chatgpt-auto-inputs.py:111 | A verdict with reason "Operation appears valid" always passes, in every kind. |
| RuleTable.FirstMatch | chatgpt-auto-inputs.py:92-188 | The chosen check belongs to a rule whose label test passes, and every earlier rule's test fails. When no check is chosen, no rule's test passes, which is the permissive fall-through. |
| Agreement.GraphAgrees | chatgpt-auto-inputs.py:86-111 | For every baseline, label, operand list and payload, the graph validator gives the verdict of the graph table. The table is Insert (two operands; listed edge or self-loop), then Delete, then Check/path. Faults agree too. |
| Agreement.TreeAgrees | chatgpt-auto-inputs.py:113-136 | The tree validator equals the tree table: Search/Find, then Insert, then Delete. |
| Agreement.ListAgrees | chatgpt-auto-inputs.py:138-166 | The list validator equals a one-rule table. The three copied Insert, Delete and Update branches act as one rule whose test is any of the three words. |
| Agreement.QueueAgrees | chatgpt-auto-inputs.py:168-188 | The queue validator equals the four-rule queue table, for every operand list. |
| Agreement.ResponseFollowsTable | chatgpt-auto-inputs.py:190-200 | `validate_response` rejects an unknown name. Otherwise it applies the named kind's table to the extracted payload. |
| Scenarios.EnqueueScenario | chatgpt-auto-inputs.py:179-180 | On queue baseline [5, 12, 7, 30, 2], an Enqueue answer `{'updatedQueue': [...]}` passes. |
| Scenarios.DequeueScenario | chatgpt-auto-inputs.py:174-177 | On the same baseline, a Dequeue answer claiming the queue is empty fails with "Missing dequeued value". |
| Scenarios.TreeDuplicateScenario | chatgpt-auto-inputs.py:125-127 | On tree nodes {50, 20, 80}, inserting 20 with the answer `{'error': 'duplicate value'}` passes. |
| Scenarios.GraphInsertIsDirected | chatgpt-auto-inputs.py:95-99 | Between baseline nodes 1 and 2, an answer listing only the edge 2 -> 1 fails an Insert of 1 -> 2. |
| Scenarios.SearchFound | chatgpt-auto-inputs.py:119-123 | A Search answered with `{'found': True}` passes exactly when the value is a baseline tree node. |
| Scenarios.AsWrittenSeedingMisjudgesSearch | chatgpt-auto-inputs.py:369-373 | As written, the tree baseline comes from the queue pool. A correct "found" answer for the first tree value is judged wrong whenever that value is not in the queue pool. |
| Scenarios.SeedEachKindJudgesSearch | chatgpt-auto-inputs.py:369-373 | With per-kind seeding, the same answer is judged correct. |
| Tally.AddResult | chatgpt-auto-inputs.py:24-35 | Every call counts one more question. A failed verdict also counts one more incorrect answer and appends exactly its record. The invariant `incorrect_count == len(incorrect_answers) <= total_questions` is preserved. |
| Tally.FailuresAppend | chatgpt-auto-inputs.py:27-35 | The failed records of a run extended by one outcome are the earlier failed records, followed by that outcome's record if it failed. |
| Tally.RecordAllTallies | chatgpt-auto-inputs.py:24-35 | After adding any sequence of outcomes, the total equals their number. The kept records are exactly the failed outcomes, in order, and the invariant holds. |
| Pools.NonExisting | chatgpt-auto-inputs.py:211 | The result is strictly ascending and has at most five values, each in [1, 100) and in no pool. It includes every qualifying value up to its last element, and all of them when it has fewer than five. With at most 94 pooled values it has exactly five. |

## Left out

- `send_message` (lines 293-342) is left out. It is browser I/O with sleeps, polling, retries and a page refresh, and the model cannot see the browser.
- `automate_chatgpt` (lines 344-434) is left out: driver setup, orchestration and CSV export. Only its seeding sequence (lines 369-373) is modelled.
- `display_results` (lines 37-52) is left out: console output, a floating-point success rate and a 200-character display cut.
- `generate_structured_questions` (lines 202-283) and `format_creation_message` (lines 285-291) are left out: random sampling, `eval` and question text. Only the deterministic filter of line 211 is modelled, with the pools as inputs.
- `json.loads` and `str()` of the parsed object are foreign library behaviour. They enter as the `parse` function and the payload's text.
- `str.lower()` is modelled for ASCII letters only.
- Edge endpoints are modelled as integers. `parse` is expected to map a float or boolean endpoint that equals an integer (`1.0`, `true`) to that integer, since Python compares and hashes them equal to it. It may drop edges whose endpoints equal no integer, which does not change the membership test of line 99. Unhashable endpoints, which make that test raise, give `Malformed`.
- `self.initial_values` is written by seeding but never read, so it is not part of the state.
- Baseline.Seed: an empty seed returns only the fault. The source has already written the graph and tree fields when `values[0]` raises, but the exception ends the run, so nothing observes them.
- Validate.ValidateGraph: its own contract states only the cross-kind facts. Its full behaviour is stated by `Agreement.GraphAgrees`; the single-branch `Rules` lemmas restate rows of that table.
- Validate.ValidateTree: its own contract states only invalid payloads and faults. Its full behaviour is stated by `Agreement.TreeAgrees`; the single-branch `Rules` lemmas restate rows of that table.
- Validate.ValidateLinkedList: its own contract states only invalid payloads and faults. Its full behaviour is stated by `Agreement.ListAgrees`; the single-branch `Rules` lemmas restate rows of that table.
- Validate.ValidateQueue: its own contract states only invalid payloads and the default. Its full behaviour is stated by `Agreement.QueueAgrees`; the single-branch `Rules` lemmas restate rows of that table.

## Findings

| source | as written | input that shows it | evidently intended | confidence | as-written member | corrected member |
|---|---|---|---|---|---|---|
| chatgpt-auto-inputs.py:369-373 | `update_initial_values` is called once per pool. Each call overwrites all four kinds, so every baseline is built from the queue pool. | Tree pool [50, 20, 80] and queue pool [5, 12, 7, 30, 2]. A tree Search for 50 answered `{'found': True}` is judged "Search result incorrect". | Each kind is seeded from its own pool, as the comment on line 369 says ("for each data structure separately"). | high; not executed | Scenarios.AsWrittenSeedingMisjudgesSearch | Baseline.SeedEachKind |

With the question set the driver enables today, the defect does not show. Only the queue creation question (line 220) and the queue operations (lines 255-260) are asked, and the queue pool is seeded last (line 373). So every question currently asked is judged against the right baseline. The defect appears as soon as a graph, tree or list question is enabled.

=== FILE: agreement.dfy ===
/** The hand-written validators compute exactly what the rule tables say. */
module Agreement {
  import opened Wrappers
  import opened Text
  import opened Baseline
  import opened Extract
  import opened Validate
  import opened RuleTable

  lemma FirstMatchCons(r: Rule, rest: seq<Rule>, op: string)
    ensures FirstMatch([r] + rest, op) == if Matches(r.when, op) then Some(r.check) else FirstMatch(rest, op)
  {
    assert ([r] + rest)[1..] == rest;
  }

  /** The first matching rule of a three-rule table. */
  lemma FirstOfThree(a: Rule, b: Rule, c: Rule, op: string)
    ensures FirstMatch([a, b, c], op) ==
      if Matches(a.when, op) then Some(a.check)
      else if Matches(b.when, op) then Some(b.check)
      else if Matches(c.when, op) then Some(c.check)
      else None
  {
    FirstMatchCons(a, [b, c], op);
    FirstMatchCons(b, [c], op);
    FirstMatchCons(c, [], op);
    assert [a, b, c] == [a] + [b, c];
    assert [b, c] == [b] + [c];
    assert [c] == [c] + [];
  }

  /** `Require` passes exactly when the payload carries the keyword. */
  lemma RequireRuns(k: Keyword, reason: string, s: State, op: string, values: seq<int>, p: Payload)
    ensures Run(Require(k, reason), s, op, values, p) == Answer(Holds(Carries(k), s, op, values, p).value, reason)
    ensures Holds(Carries(k), s, op, values, p).Ok?
  {
  }

  lemma GraphAgrees(s: State, op: string, values: seq<int>, j: Option<Payload>)
    ensures ValidateGraph(s, op, values, j) == Decide(s, Graph, op, values, j)
  {
    FirstOfThree(GraphRules[0], GraphRules[1], GraphRules[2], op);
    assert GraphRules == [GraphRules[0], GraphRules[1], GraphRules[2]];
    if Usable(j) {
      var p := j.value;
      if Contains(op, "Insert") {
        assert Matches(GraphRules[0].when, op);
        assert Decide(s, Graph, op, values, j) == Run(GraphRules[0].check, s, op, values, p);
        if |values| == 2 {
          var listed := Branch(Carries(Exact("edges")), Judge(EdgeListed, EdgeNotAdded), Permit(Permissive));
          var loop := Branch(SameOperands, Require(AnyCase("error"), SelfLoop), Permit(Permissive));
          assert Run(GraphRules[0].check, s, op, values, p) == Run(Branch(BothAreGraphNodes, listed, loop), s, op, values, p);
          if values[0] in s.graphNodes && values[1] in s.graphNodes {
            assert Run(Branch(BothAreGraphNodes, listed, loop), s, op, values, p) == Run(listed, s, op, values, p);
            if Mentions(p, "edges") {
              assert Run(listed, s, op, values, p) == Run(Judge(EdgeListed, EdgeNotAdded), s, op, values, p);
            } else {
              assert Run(listed, s, op, values, p) == Answer(true, Permissive);
            }
          } else {
            assert Run(Branch(BothAreGraphNodes, listed, loop), s, op, values, p) == Run(loop, s, op, values, p);
            RequireRuns(AnyCase("error"), SelfLoop, s, op, values, p);
            if values[0] == values[1] {
              assert Run(loop, s, op, values, p) == Run(Require(AnyCase("error"), SelfLoop), s, op, values, p);
            } else {
              assert Run(loop, s, op, values, p) == Answer(true, Permissive);
            }
          }
        }
      } else if Contains(op, "Delete") {
        assert !Matches(GraphRules[0].when, op);
        assert Matches(GraphRules[1].when, op);
        assert Decide(s, Graph, op, values, j) == Run(GraphRules[1].check, s, op, values, p);
        var handled := Both(Carries(Exact("message")), Carries(AnyCase("not exist")));
        assert Holds(handled, s, op, values, p) == Ok(Mentions(p, "message") && MentionsFolded(p, "not exist"));
        var judged := Judge(Not(FirstIsGraphNode), BadDeletion);
        if Mentions(p, "message") && MentionsFolded(p, "not exist") {
          assert Run(GraphRules[1].check, s, op, values, p) == Answer(true, HandledMissingNode);
        } else {
          assert Run(GraphRules[1].check, s, op, values, p) == Run(judged, s, op, values, p);
          if values != [] {
            assert Holds(Not(FirstIsGraphNode), s, op, values, p) == Ok(values[0] !in s.graphNodes);
          } else {
            assert Holds(FirstIsGraphNode, s, op, values, p) == Err(IndexError);
            assert Holds(Not(FirstIsGraphNode), s, op, values, p) == Err(IndexError);
          }
        }
      } else if Contains(op, "Check") || Contains(Lower(op), "path") {
        assert !Matches(GraphRules[0].when, op);
        assert !Matches(GraphRules[1].when, op);
        assert Matches(GraphRules[2].when, op);
        RequireRuns(Exact("pathExists"), NoPathResult, s, op, values, p);
      } else {
        assert !Matches(GraphRules[0].when, op);
        assert !Matches(GraphRules[1].when, op);
        assert !Matches(GraphRules[2].when, op);
      }
    }
  }

  lemma TreeAgrees(s: State, op: string, values: seq<int>, j: Option<Payload>)
    ensures ValidateTree(s, op, values, j) == Decide(s, Tree, op, values, j)
  {
    FirstOfThree(TreeRules[0], TreeRules[1], TreeRules[2], op);
    assert TreeRules == [TreeRules[0], TreeRules[1], TreeRules[2]];
    if Usable(j) {
      var p := j.value;
      if Contains(op, "Search") || Contains(op, "Find") {
        assert Matches(TreeRules[0].when, op);
        assert Decide(s, Tree, op, values, j) == Run(TreeRules[0].check, s, op, values, p);
        var claim := Both(Carries(AnyCase("found")), Carries(AnyCase("true")));
        assert Holds(claim, s, op, values, p) == Ok(MentionsFolded(p, "found") && MentionsFolded(p, "true"));
        if values != [] {
          assert Holds(FirstIsTreeNode, s, op, values, p) == Ok(values[0] in s.treeNodes);
          assert Holds(Same(claim, FirstIsTreeNode), s, op, values, p)
              == Ok((MentionsFolded(p, "found") && MentionsFolded(p, "true")) == (values[0] in s.treeNodes));
        } else {
          assert Holds(Same(claim, FirstIsTreeNode), s, op, values, p) == Err(IndexError);
        }
      } else if Contains(op, "Insert") {
        assert !Matches(TreeRules[0].when, op);
        assert Matches(TreeRules[1].when, op);
        assert Decide(s, Tree, op, values, j) == Run(TreeRules[1].check, s, op, values, p);
        RequireRuns(AnyCase("error"), Duplicate, s, op, values, p);
        RequireRuns(Exact("structure"), NoTreeStructure, s, op, values, p);
      } else if Contains(op, "Delete") {
        assert !Matches(TreeRules[0].when, op);
        assert !Matches(TreeRules[1].when, op);
        assert Matches(TreeRules[2].when, op);
        assert Decide(s, Tree, op, values, j) == Run(TreeRules[2].check, s, op, values, p);
        RequireRuns(AnyCase("not found"), TreeMissingValue, s, op, values, p);
        RequireRuns(Exact("structure"), NoTreeStructure, s, op, values, p);
      } else {
        assert !Matches(TreeRules[0].when, op);
        assert !Matches(TreeRules[1].when, op);
        assert !Matches(TreeRules[2].when, op);
      }
    }
  }

  lemma ListAgrees(s: State, op: string, values: seq<int>, j: Option<Payload>)
    ensures ValidateLinkedList(s, op, values, j) == Decide(s, LinkedList, op, values, j)
  {
    FirstMatchCons(ListRules[0], [], op);
    assert ListRules == [ListRules[0]] + [];
    if Usable(j) {
      var p := j.value;
      RequireRuns(AnyCase("out of bounds"), OutOfBounds, s, op, values, p);
      RequireRuns(Exact("structure"), NoListStructure, s, op, values, p);
      assert Matches(Either(Word("Delete"), Word("Update")), op) == (Contains(op, "Delete") || Contains(op, "Update"));
      assert Matches(ListRules[0].when, op) == (Contains(op, "Insert") || Contains(op, "Delete") || Contains(op, "Update"));
      if Contains(op, "Insert") || Contains(op, "Delete") || Contains(op, "Update") {
        assert Matches(ListRules[0].when, op);
        assert Decide(s, LinkedList, op, values, j) == Run(ListRules[0].check, s, op, values, p);
        assert ValidateLinkedList(s, op, values, j) == PositionRule(s, op, values, p);
        var past := Branch(FirstPastListEnd, Require(AnyCase("out of bounds"), OutOfBounds), Require(Exact("structure"), NoListStructure));
        assert Holds(LabelSays(FoldedWord("position")), s, op, values, p) == Ok(Contains(Lower(op), "position"));
        if Contains(Lower(op), "position") {
          assert Run(ListRules[0].check, s, op, values, p) == Run(past, s, op, values, p);
        } else {
          assert Run(ListRules[0].check, s, op, values, p) == Run(Require(Exact("structure"), NoListStructure), s, op, values, p);
        }
      } else {
        assert !Matches(ListRules[0].when, op);
      }
    }
  }

  lemma QueueAgrees(s: State, op: string, values: seq<int>, j: Option<Payload>)
    ensures ValidateQueue(s, op, j) == Decide(s, Queue, op, values, j)
  {
    FirstMatchCons(QueueRules[0], QueueRules[1..], op);
    FirstOfThree(QueueRules[1], QueueRules[2], QueueRules[3], op);
    assert QueueRules == [QueueRules[0]] + [QueueRules[1], QueueRules[2], QueueRules[3]];
    if Usable(j) {
      var p := j.value;
      if Contains(op, "Dequeue") {
        assert Matches(QueueRules[0].when, op);
        assert Decide(s, Queue, op, values, j) == Run(QueueRules[0].check, s, op, values, p);
        assert Holds(QueueIsEmpty, s, op, values, p) == Ok(|s.queueValues| == 0);
        assert Run(Require(AnyCase("empty"), EmptyQueue), s, op, values, p) == Answer(MentionsFolded(p, "empty"), EmptyQueue);
        assert Run(Require(Exact("dequeuedValue"), NoDequeued), s, op, values, p) == Answer(Mentions(p, "dequeuedValue"), NoDequeued);
      } else if Contains(op, "Enqueue") {
        assert !Matches(QueueRules[0].when, op);
        assert Matches(QueueRules[1].when, op);
        assert Decide(s, Queue, op, values, j) == Run(QueueRules[1].check, s, op, values, p);
      } else {
        assert !Matches(QueueRules[0].when, op);
        assert !Matches(QueueRules[1].when, op);
      }
    }
  }

  /** `validate_response` is the rule table of the named kind applied to the extracted payload. */
  lemma ResponseFollowsTable(s: State, structure: string, op: string, values: seq<int>,
                             response: string, parse: string -> Option<Payload>)
    ensures ValidateResponse(s, structure, op, values, response, parse) ==
      match KindNamed(structure)
      case None => Answer(false, UnknownStructure)
      case Some(k) => Decide(s, k, op, values, CleanJson(response, parse))
  {
    var j := CleanJson(response, parse);
    match KindNamed(structure)
    case None =>
    case Some(Graph) => GraphAgrees(s, op, values, j);
    case Some(Tree) => TreeAgrees(s, op, values, j);
    case Some(LinkedList) => ListAgrees(s, op, values, j);
    case Some(Queue) => QueueAgrees(s, op, values, j);
  }
}

=== FILE: baseline.dfy ===
/** The expected-state tracker (`DataStructureValidator.state`): a fixed baseline
    per structure kind, seeded from a list of values and only read afterwards. */
module Baseline {
  import opened Wrappers

  /** The four structure kinds under test. */
  datatype Kind = Graph | Tree | LinkedList | Queue

  /** The whole tracker state: graph nodes and directed consecutive-pair edges,
      tree nodes and root, and the linked-list and queue value sequences. */
  datatype State = State(
    graphNodes: set<int>,
    graphEdges: set<(int, int)>,
    treeNodes: set<int>,
    treeRoot: Option<int>,
    listValues: seq<int>,
    queueValues: seq<int>)

  /** The state right after construction: every kind empty, no tree root. */
  const Unseeded: State := State({}, {}, {}, None, [], [])

  /** What one kind's part of the baseline holds. */
  datatype Shape =
    | GraphShape(nodes: set<int>, edges: set<(int, int)>)
    | TreeShape(nodes: set<int>, root: Option<int>)
    | Sequence(values: seq<int>)

  /** The part of the state that belongs to kind k. */
  function Snapshot(s: State, k: Kind): Shape
  {
    match k
    case Graph => GraphShape(s.graphNodes, s.graphEdges)
    case Tree => TreeShape(s.treeNodes, s.treeRoot)
    case LinkedList => Sequence(s.listValues)
    case Queue => Sequence(s.queueValues)
  }

  /** `set(values)` */
  function Elements(values: seq<int>): set<int>
  {
    set x | x in values
  }

  /** No value occurs twice (the seed pools are drawn without replacement). */
  predicate Distinct(values: seq<int>)
  {
    forall i, j :: 0 <= i < j < |values| ==> values[i] != values[j]
  }

  /** `{(values[i], values[i+1]) for i in range(len(values)-1)}`: the ordered pairs of
      neighbouring seed values. */
  function Links(values: seq<int>): (r: set<(int, int)>)
    ensures forall i :: 0 <= i < |values| - 1 ==> (values[i], values[i + 1]) in r
    ensures forall e :: e in r ==> exists i :: 0 <= i < |values| - 1 && e == (values[i], values[i + 1])
  {
    if |values| < 2 then {} else {(values[0], values[1])} + Links(values[1..])
  }

  /** The baseline one kind is meant to get from a seed list. */
  function Expected(k: Kind, values: seq<int>): Shape
  {
    match k
    case Graph => GraphShape(Elements(values), Links(values))
    case Tree => TreeShape(Elements(values), if values == [] then None else Some(values[0]))
    case LinkedList => Sequence(values)
    case Queue => Sequence(values)
  }

  /** `update_initial_values`: one seed list overwrites the baseline of all four
      kinds, whatever the state held before; an empty list raises at `values[0]`. */
  function Seed(s: State, values: seq<int>): (r: Result<State, Fault>)
    ensures r.Err? <==> values == []
    ensures r.Err? ==> r.error == IndexError
    ensures r.Ok? ==> forall k :: Snapshot(r.value, k) == Expected(k, values)
  {
    if values == [] then Err(IndexError)
    else Ok(State(Elements(values), Links(values), Elements(values), Some(values[0]), values, values))
  }

  /** `set(values)` never has more elements than the list, and exactly as many
      when no value repeats. */
  lemma {:induction false} ElementsCount(values: seq<int>)
    ensures |Elements(values)| <= |values|
    ensures Distinct(values) ==> |Elements(values)| == |values|
  {
    if values != [] {
      assert Elements(values) == {values[0]} + Elements(values[1..]);
      ElementsCount(values[1..]);
    }
  }

  /** There is at most one edge per neighbouring pair, and exactly one when no value repeats. */
  lemma {:induction false} LinksCount(values: seq<int>)
    requires values != []
    ensures |Links(values)| <= |values| - 1
    ensures Distinct(values) ==> |Links(values)| == |values| - 1
  {
    if 2 <= |values| {
      var rest := Links(values[1..]);
      LinksCount(values[1..]);
      assert Links(values) == {(values[0], values[1])} + rest;
      if Distinct(values) {
        assert values[0] !in values[1..];
        LinksAvoid(values[1..], values[0]);
      }
    }
  }

  /** A value absent from the seed starts no edge. */
  lemma {:induction false} LinksAvoid(values: seq<int>, x: int)
    requires x !in values
    ensures forall y :: (x, y) !in Links(values)
  {
    if 2 <= |values| {
      assert Links(values) == {(values[0], values[1])} + Links(values[1..]);
      LinksAvoid(values[1..], x);
    }
  }

  /** A seed of distinct values gives node sets that are exactly the seed
      (membership and cardinality), one edge per neighbouring pair, the first
      value as tree root, and verbatim copies for the list and the queue. */
  lemma SeedSnapshot(s: State, values: seq<int>)
    requires values != [] && Distinct(values)
    ensures Seed(s, values).Ok?
    ensures var b := Seed(s, values).value;
      && (forall x :: x in b.graphNodes <==> x in values)
      && (forall x :: x in b.treeNodes <==> x in values)
      && |b.graphNodes| == |b.treeNodes| == |values|
      && |b.graphEdges| == |values| - 1
      && b.treeRoot == Some(values[0])
      && b.listValues == values && b.queueValues == values
  {
    ElementsCount(values);
    LinksCount(values);
  }

  /** The seeding sequence of the driver as written: `update_initial_values` is
      called with the tree, graph, linked-list and queue pools in turn. */
  function SeedAsWritten(tree: seq<int>, graph: seq<int>, list: seq<int>, queue: seq<int>): (r: Result<State, Fault>)
    ensures r.Err? <==> tree == [] || graph == [] || list == [] || queue == []
    ensures r.Err? ==> r.error == IndexError
    ensures tree != [] && graph != [] && list != [] && queue != [] ==>
      r.Ok? && forall k :: Snapshot(r.value, k) == Expected(k, queue)
  {
    match Seed(Unseeded, tree)
    case Err(f) => Err(f)
    case Ok(s1) =>
      match Seed(s1, graph)
      case Err(f) => Err(f)
      case Ok(s2) =>
        match Seed(s2, list)
        case Err(f) => Err(f)
        case Ok(s3) => Seed(s3, queue)
  }

  /** Seeding one kind only: the intended per-kind initialisation. Only the tree
      needs a first value (its root). */
  function Initialize(s: State, kind: Kind, values: seq<int>): (r: Result<State, Fault>)
    ensures r.Err? <==> kind == Tree && values == []
    ensures r.Ok? ==> Snapshot(r.value, kind) == Expected(kind, values)
    ensures r.Ok? ==> forall k :: k != kind ==> Snapshot(r.value, k) == Snapshot(s, k)
  {
    match kind
    case Graph => Ok(s.(graphNodes := Elements(values), graphEdges := Links(values)))
    case Tree =>
      if values == [] then Err(IndexError)
      else Ok(s.(treeNodes := Elements(values), treeRoot := Some(values[0])))
    case LinkedList => Ok(s.(listValues := values))
    case Queue => Ok(s.(queueValues := values))
  }

  /** The corrected seeding sequence: each pool seeds its own kind. */
  function SeedEachKind(tree: seq<int>, graph: seq<int>, list: seq<int>, queue: seq<int>): (r: Result<State, Fault>)
    ensures r.Err? <==> tree == []
    ensures r.Ok? ==>
      && Snapshot(r.value, Tree) == Expected(Tree, tree)
      && Snapshot(r.value, Graph) == Expected(Graph, graph)
      && Snapshot(r.value, LinkedList) == Expected(LinkedList, list)
      && Snapshot(r.value, Queue) == Expected(Queue, queue)
  {
    match Initialize(Unseeded, Tree, tree)
    case Err(f) => Err(f)
    case Ok(s1) =>
      var s2 := Initialize(s1, Graph, graph).value;
      var s3 := Initialize(s2, LinkedList, list).value;
      Initialize(s3, Queue, queue)
  }
}

=== FILE: extract.dfy ===
/** Payload extraction (`clean_json`): the text between the first `{` and the
    last `}` of a response is handed to a JSON parser. The parser and Python's
    rendering of the parsed object are not modelled; they enter as the function
    `parse`, whose result already carries the rendered text. */
module Extract {
  import opened Wrappers
  import opened Text

  /** One `{from, to}` entry of `graphUpdate.edges`. */
  datatype Edge = Edge(from: int, to: int)

  /** `json_resp.get('graphUpdate', {}).get('edges', [])`. A missing key, and an
      empty object or empty string under `edges`, iterate as no edges and appear
      as `Listed([])`. `Malformed` stands for the shapes that make line 99 raise:
      a `graphUpdate` that is not an object, an entry without `from` or `to`, a
      non-iterable or unhashable value. */
  datatype EdgeList = Listed(edges: seq<Edge>) | Malformed

  /** A parsed response object: `str(json_resp)` and its graph-update edge list. */
  datatype Payload = Payload(text: string, update: EdgeList)

  /** Python's `str` of an empty dict. */
  const EmptyObject: string := "{}"

  /** `not json_resp` is false: a payload was parsed and it is not the empty object. */
  predicate Usable(j: Option<Payload>)
  {
    j.Some? && j.value.text != EmptyObject
  }

  /** Every closing brace of s comes before every opening brace. */
  ghost predicate ClosersFirst(s: string)
  {
    forall i, j :: 0 <= i < |s| && 0 <= j < |s| && s[i] == '{' && s[j] == '}' ==> j < i
  }

  /** `response[response.find('{'):response.rfind('}') + 1]`, taken only when both
      braces occur; a slice whose end does not pass its start is the empty string. */
  function BraceSlice(response: string): (r: Option<string>)
    ensures r.None? <==> '{' !in response || '}' !in response
    ensures r.Some? ==> (r.value == [] <==> ClosersFirst(response))
    ensures r.Some? && r.value != [] ==>
      r.value[0] == '{' && r.value[|r.value| - 1] == '}' &&
      exists i :: OccursAt(response, r.value, i) && '{' !in response[..i]
                  && '}' !in response[i + |r.value|..]
  {
    var start := Find(response, '{');
    var end := RFind(response, '}') + 1;
    if start != -1 && end != 0 then
      if start < end then
        assert OccursAt(response, response[start..end], start);
        assert !ClosersFirst(response) by {
          assert response[start] == '{' && response[end - 1] == '}';
        }
        Some(response[start..end])
      else
        Some([])
    else
      None
  }

  /** `clean_json`: parse the brace slice, or `None` when a brace is missing or
      the parser rejects the slice. */
  function CleanJson(response: string, parse: string -> Option<Payload>): (r: Option<Payload>)
    ensures '{' !in response || '}' !in response ==> r == None
    ensures parse([]) == None && ClosersFirst(response) ==> r == None
    ensures BraceSlice(response).Some? ==> r == parse(BraceSlice(response).value)
    ensures r.Some? ==> exists t :: Some(t) == BraceSlice(response) && r == parse(t)
  {
    match BraceSlice(response)
    case None => None
    case Some(t) => parse(t)
  }
}

=== FILE: pools.dfy ===
/** The deterministic part of question generation: the values in [1, 100) that
    are in none of the four seed pools, in ascending order, at most five of them. */
module Pools {
  import opened Baseline

  /** `tree_values + graph_values + linked_list_values + queue_values` */
  function Pooled(tree: seq<int>, graph: seq<int>, list: seq<int>, queue: seq<int>): seq<int>
  {
    tree + graph + list + queue
  }

  /** x is a value the generator may offer as not existing: in range and in no pool. */
  predicate Unused(x: int, used: seq<int>)
  {
    1 <= x < 100 && x !in used
  }

  /** `[x for x in range(1, 100) if x not in pooled][:5]` */
  method NonExisting(tree: seq<int>, graph: seq<int>, list: seq<int>, queue: seq<int>) returns (r: seq<int>)
    ensures |r| <= 5
    ensures forall i :: 0 <= i < |r| ==> Unused(r[i], Pooled(tree, graph, list, queue))
    ensures forall i, j :: 0 <= i < j < |r| ==> r[i] < r[j]
    ensures forall x :: Unused(x, Pooled(tree, graph, list, queue)) && (|r| < 5 || x <= r[|r| - 1]) ==> x in r
    ensures |Pooled(tree, graph, list, queue)| <= 94 ==> |r| == 5
  {
    var used := Pooled(tree, graph, list, queue);
    var acc: seq<int> := [];
    var x := 1;
    ghost var skipped: set<int> := {};
    while x < 100
      invariant 1 <= x <= 100
      invariant forall i :: 0 <= i < |acc| ==> Unused(acc[i], used) && acc[i] < x
      invariant forall i, j :: 0 <= i < j < |acc| ==> acc[i] < acc[j]
      invariant forall y :: Unused(y, used) && y < x ==> y in acc
      invariant skipped <= Elements(used)
      invariant forall y :: y in skipped ==> y < x
      invariant |acc| + |skipped| == x - 1
    {
      if x !in used {
        acc := acc + [x];
      } else {
        assert x !in skipped;
        skipped := skipped + {x};
      }
      x := x + 1;
    }
    ElementsCount(used);
    assert |skipped| <= |Elements(used)| by {
      assert Elements(used) == skipped + (Elements(used) - skipped);
    }
    if |acc| <= 5 {
      r := acc;
    } else {
      r := acc[..5];
      forall y | Unused(y, used) && y <= r[4]
        ensures y in r
      {
        var k :| 0 <= k < |acc| && acc[k] == y;
        assert k < 5;
        assert r[k] == y;
      }
    }
  }
}

=== FILE: rules.dfy ===
/** What the validator rules promise, stated per kind and across kinds. */
module Rules {
  import opened Wrappers
  import opened Text
  import opened Baseline
  import opened Extract
  import opened Validate

  /** An empty object `{}` is as invalid as no payload at all, for every kind and label. */
  lemma EmptyObjectInvalid(s: State, k: Kind, op: string, values: seq<int>, edges: EdgeList)
    ensures ValidateKind(s, k, op, values, Some(Payload(EmptyObject, edges))) == Answer(false, InvalidJson)
  {
  }

  /** A response without an opening or a closing brace fails every known kind
      with the same reason, whatever the label and operands. */
  lemma NoBracesInvalid(s: State, structure: string, op: string, values: seq<int>,
                        response: string, parse: string -> Option<Payload>)
    requires KindNamed(structure).Some?
    requires '{' !in response || '}' !in response
    ensures ValidateResponse(s, structure, op, values, response, parse) == Answer(false, InvalidJson)
  {
  }

  /** Graph Insert between two baseline nodes, when the text mentions `edges`:
      the verdict is whether the ORDERED pair (node1, node2) is listed. */
  lemma GraphInsertListedEdge(s: State, op: string, a: int, b: int, p: Payload, es: seq<Edge>)
    requires Contains(op, "Insert")
    requires a in s.graphNodes && b in s.graphNodes
    requires p.text != EmptyObject && Mentions(p, "edges") && p.update == Listed(es)
    ensures ValidateGraph(s, op, [a, b], Some(p))
         == Answer(exists k :: 0 <= k < |es| && es[k].from == a && es[k].to == b, EdgeNotAdded)
  {
    var r := ValidateGraph(s, op, [a, b], Some(p));
    if Edge(a, b) in es {
      var k :| 0 <= k < |es| && es[k] == Edge(a, b);
      assert es[k].from == a && es[k].to == b;
    }
  }

  /** Graph Insert between two baseline nodes whose response never says `edges`
      falls through to the permissive default. */
  lemma GraphInsertWithoutEdges(s: State, op: string, a: int, b: int, p: Payload)
    requires Contains(op, "Insert")
    requires a in s.graphNodes && b in s.graphNodes
    requires p.text != EmptyObject && !Mentions(p, "edges")
    ensures ValidateGraph(s, op, [a, b], Some(p)) == Answer(true, Permissive)
  {
  }

  /** The self-loop rule fires exactly for an Insert of one node onto itself when
      that node is not in the baseline; a baseline node inserted onto itself is
      judged by the edge rule instead. */
  lemma GraphSelfLoopReach(s: State, op: string, values: seq<int>, j: Option<Payload>)
    ensures ValidateGraph(s, op, values, j).Answer? && ValidateGraph(s, op, values, j).reason == SelfLoop
      <==> Usable(j) && Contains(op, "Insert") && |values| == 2 && values[0] == values[1]
           && values[0] !in s.graphNodes
  {
  }

  /** Every other graph Insert of two operands passes by default. */
  lemma GraphInsertOtherwisePermissive(s: State, op: string, a: int, b: int, p: Payload)
    requires Contains(op, "Insert")
    requires !(a in s.graphNodes && b in s.graphNodes) && a != b
    requires p.text != EmptyObject
    ensures ValidateGraph(s, op, [a, b], Some(p)) == Answer(true, Permissive)
  {
  }

  /** Graph Insert without exactly two operands raises while unpacking them. */
  lemma GraphInsertArity(s: State, op: string, values: seq<int>, p: Payload)
    requires Contains(op, "Insert") && p.text != EmptyObject
    ensures ValidateGraph(s, op, values, Some(p)) == Raised(UnpackError) <==> |values| != 2
  {
  }

  /** Graph Delete passes when the response reports a missing node in a message,
      and otherwise exactly when the operand is not a baseline node. */
  lemma GraphDeleteRule(s: State, op: string, values: seq<int>, p: Payload)
    requires !Contains(op, "Insert") && Contains(op, "Delete") && p.text != EmptyObject
    ensures var r := ValidateGraph(s, op, values, Some(p));
      && (r.Raised? <==> values == [] && !(Mentions(p, "message") && MentionsFolded(p, "not exist")))
      && (r.Answer? ==> (r.valid <==> (Mentions(p, "message") && MentionsFolded(p, "not exist"))
                                      || values[0] !in s.graphNodes))
  {
  }

  /** A Check or path label (path matched case-insensitively) passes exactly when
      the response names `pathExists`, case-sensitively. */
  lemma GraphPathRule(s: State, op: string, values: seq<int>, p: Payload)
    requires !Contains(op, "Insert") && !Contains(op, "Delete")
    requires Contains(op, "Check") || Contains(Lower(op), "path")
    requires p.text != EmptyObject
    ensures ValidateGraph(s, op, values, Some(p)) == Answer(Mentions(p, "pathExists"), NoPathResult)
  {
  }

  /** Tree Search/Find passes exactly when the response's claim of having found
      the value (`found` and `true` in the lowercased text) matches whether the
      value is a baseline node. */
  lemma TreeSearchAgrees(s: State, op: string, target: int, rest: seq<int>, p: Payload)
    requires Contains(op, "Search") || Contains(op, "Find")
    requires p.text != EmptyObject
    ensures var r := ValidateTree(s, op, [target] + rest, Some(p));
      && r.Answer? && r.reason == SearchWrong
      && (r.valid <==> ((MentionsFolded(p, "found") && MentionsFolded(p, "true")) <==> target in s.treeNodes))
  {
  }

  /** Tree Insert of a baseline value must report an error; of a new value, the
      updated structure. */
  lemma TreeInsertRule(s: State, op: string, target: int, rest: seq<int>, p: Payload)
    requires !Contains(op, "Search") && !Contains(op, "Find") && Contains(op, "Insert")
    requires p.text != EmptyObject
    ensures ValidateTree(s, op, [target] + rest, Some(p))
         == if target in s.treeNodes then Answer(MentionsFolded(p, "error"), Duplicate)
            else Answer(Mentions(p, "structure"), NoTreeStructure)
  {
  }

  /** An answer that writes `error` verbatim reports a duplicate insert: the
      lowercased search accepts every plain occurrence of a lowercase keyword. */
  lemma DuplicateReportedVerbatim(s: State, op: string, target: int, rest: seq<int>, p: Payload)
    requires !Contains(op, "Search") && !Contains(op, "Find") && Contains(op, "Insert")
    requires target in s.treeNodes
    requires p.text != EmptyObject && Mentions(p, "error")
    ensures ValidateTree(s, op, [target] + rest, Some(p)) == Answer(true, Duplicate)
  {
    assert Lower("error") == "error";
    ContainsLowered(p.text, "error");
  }

  /** Tree Delete of a value outside the baseline must report `not found`; of a
      baseline value, the updated structure. */
  lemma TreeDeleteRule(s: State, op: string, target: int, rest: seq<int>, p: Payload)
    requires !Contains(op, "Search") && !Contains(op, "Find") && !Contains(op, "Insert")
    requires Contains(op, "Delete")
    requires p.text != EmptyObject
    ensures ValidateTree(s, op, [target] + rest, Some(p))
         == if target !in s.treeNodes then Answer(MentionsFolded(p, "not found"), TreeMissingValue)
            else Answer(Mentions(p, "structure"), NoTreeStructure)
  {
  }

  /** Linked-list Insert, Delete and Update all follow one rule: a position label
      whose first operand is at or past the baseline length needs `out of bounds`;
      everything else needs `structure`. Other labels pass. */
  lemma LinkedListRule(s: State, op: string, values: seq<int>, p: Payload)
    requires p.text != EmptyObject
    requires ((Contains(op, "Insert") || Contains(op, "Delete") || Contains(op, "Update"))
              && Contains(Lower(op), "position")) ==> values != []
    ensures var r := ValidateLinkedList(s, op, values, Some(p));
      if !(Contains(op, "Insert") || Contains(op, "Delete") || Contains(op, "Update")) then
        r == Answer(true, Permissive)
      else if Contains(Lower(op), "position") && values[0] >= |s.listValues| then
        r == Answer(MentionsFolded(p, "out of bounds"), OutOfBounds)
      else
        r == Answer(Mentions(p, "structure"), NoListStructure)
  {
  }

  /** The queue rules in priority order. */
  lemma QueueRule(s: State, op: string, p: Payload)
    requires p.text != EmptyObject
    ensures ValidateQueue(s, op, Some(p)) ==
      if Contains(op, "Dequeue") then
        (if s.queueValues == [] then Answer(MentionsFolded(p, "empty"), EmptyQueue)
         else Answer(Mentions(p, "dequeuedValue"), NoDequeued))
      else if Contains(op, "Enqueue") then Answer(Mentions(p, "updatedQueue"), NoUpdatedQueue)
      else if Contains(op, "Display") then Answer(MentionsFolded(p, "queue"), NoQueueContents)
      else if Contains(op, "Check") || Contains(Lower(op), "exists") then
        Answer(MentionsFolded(p, "exists"), NoExistence)
      else Answer(true, Permissive)
  {
  }

  /** Dequeue against an empty baseline: any payload mentioning `empty` (in any
      letter case) passes, and any other usable payload fails. */
  lemma DequeueFromEmpty(s: State, op: string, p: Payload)
    requires Contains(op, "Dequeue") && s.queueValues == []
    requires p.text != EmptyObject
    ensures ValidateQueue(s, op, Some(p)).valid <==> MentionsFolded(p, "empty")
  {
  }

  /** The queue validator never looks at the operands. */
  lemma QueueIgnoresOperands(s: State, op: string, v1: seq<int>, v2: seq<int>,
                             response: string, parse: string -> Option<Payload>)
    ensures ValidateResponse(s, "queue", op, v1, response, parse)
         == ValidateResponse(s, "queue", op, v2, response, parse)
  {
  }

  /** For the tree, linked-list and queue validators the reason (or the raised
      fault) is determined by the label, the operands and the baseline: two usable
      payloads can change the verdict but never the reason. */
  lemma ReasonIgnoresPayload(s: State, k: Kind, op: string, values: seq<int>, p: Payload, q: Payload)
    requires k != Graph
    requires p.text != EmptyObject && q.text != EmptyObject
    ensures var r1 := ValidateKind(s, k, op, values, Some(p));
      var r2 := ValidateKind(s, k, op, values, Some(q));
      && r1.Raised? == r2.Raised?
      && (r1.Raised? ==> r1 == r2)
      && (r1.Answer? ==> r1.reason == r2.reason)
  {
  }

  /** The same holds for graphs once two payloads agree on mentioning `edges`,
      agree on reporting a missing node in a message, and both carry a
      well-formed edge list. */
  lemma GraphReasonIgnoresPayload(s: State, op: string, values: seq<int>, p: Payload, q: Payload)
    requires p.text != EmptyObject && q.text != EmptyObject
    requires Mentions(p, "edges") == Mentions(q, "edges")
    requires (Mentions(p, "message") && MentionsFolded(p, "not exist"))
         == (Mentions(q, "message") && MentionsFolded(q, "not exist"))
    requires p.update.Listed? && q.update.Listed?
    ensures var r1 := ValidateGraph(s, op, values, Some(p));
      var r2 := ValidateGraph(s, op, values, Some(q));
      && r1.Raised? == r2.Raised?
      && (r1.Raised? ==> r1 == r2)
      && (r1.Answer? ==> r1.reason == r2.reason)
  {
  }

  /** The permissive default never fails, in any kind. */
  lemma PermissiveNeverFails(s: State, k: Kind, op: string, values: seq<int>, j: Option<Payload>)
    ensures var r := ValidateKind(s, k, op, values, j);
      r.Answer? && r.reason == Permissive ==> r.valid
  {
  }
}

=== FILE: ruletable.dfy ===
/** The validators restated as a rule table: per kind, a priority list of
    (label test, check) pairs. The first rule whose test the label passes decides;
    a label no rule matches passes with the permissive default. The lemmas
    `Agreement.GraphAgrees`, `TreeAgrees`, `ListAgrees` and `QueueAgrees` show that
    the hand-written validators compute exactly this. */
module RuleTable {
  import opened Wrappers
  import opened Text
  import opened Baseline
  import opened Extract
  import opened Validate

  /** A test on the operation label: a case-sensitive word, a word of the
      lowercased label, or either of two tests. */
  datatype LabelTest = Word(w: string) | FoldedWord(w: string) | Either(a: LabelTest, b: LabelTest)

  predicate Matches(t: LabelTest, op: string)
  {
    match t
    case Word(w) => Contains(op, w)
    case FoldedWord(w) => Contains(Lower(op), w)
    case Either(a, b) => Matches(a, op) || Matches(b, op)
  }

  /** A keyword searched in the rendered payload, as written or in lowercase. */
  datatype Keyword = Exact(w: string) | AnyCase(w: string)

  /** A condition a check can depend on: the answer, the label, the baseline and the operands. */
  datatype Fact =
    | Carries(k: Keyword)
    | LabelSays(t: LabelTest)
    | FirstIsGraphNode
    | BothAreGraphNodes
    | SameOperands
    | EdgeListed
    | FirstIsTreeNode
    | FirstPastListEnd
    | QueueIsEmpty
    | Not(f: Fact)
    | Both(a: Fact, b: Fact)
    | Same(a: Fact, b: Fact)

  /** What a rule does once its label matched. */
  datatype Check =
    | Permit(reason: string)                    // passes
    | Judge(f: Fact, reason: string)            // passes exactly when f holds
    | Branch(f: Fact, yes: Check, no: Check)    // continues by f
    | Pair(next: Check)                         // needs exactly two operands

  datatype Rule = Rule(when: LabelTest, check: Check)

  /** The answer must carry the keyword. */
  function Require(k: Keyword, reason: string): Check
  {
    Judge(Carries(k), reason)
  }

  /** Whether a fact holds, or the fault raised while finding out (a missing
      operand, a wrong operand count, a malformed edge list). */
  function Holds(f: Fact, s: State, op: string, values: seq<int>, p: Payload): Result<bool, Fault>
  {
    match f
    case Carries(Exact(w)) => Ok(Mentions(p, w))
    case Carries(AnyCase(w)) => Ok(MentionsFolded(p, w))
    case LabelSays(t) => Ok(Matches(t, op))
    case FirstIsGraphNode => if values == [] then Err(IndexError) else Ok(values[0] in s.graphNodes)
    case BothAreGraphNodes =>
      if |values| != 2 then Err(UnpackError) else Ok(values[0] in s.graphNodes && values[1] in s.graphNodes)
    case SameOperands => if |values| != 2 then Err(UnpackError) else Ok(values[0] == values[1])
    case EdgeListed =>
      if |values| != 2 then Err(UnpackError)
      else (match p.update
            case Malformed => Err(EdgeShapeError)
            case Listed(es) => Ok(Edge(values[0], values[1]) in es))
    case FirstIsTreeNode => if values == [] then Err(IndexError) else Ok(values[0] in s.treeNodes)
    case FirstPastListEnd => if values == [] then Err(IndexError) else Ok(values[0] >= |s.listValues|)
    case QueueIsEmpty => Ok(s.queueValues == [])
    case Not(g) =>
      (match Holds(g, s, op, values, p)
       case Err(e) => Err(e)
       case Ok(b) => Ok(!b))
    case Both(a, b) =>
      (match Holds(a, s, op, values, p)
       case Err(e) => Err(e)
       case Ok(false) => Ok(false)
       case Ok(true) => Holds(b, s, op, values, p))
    case Same(a, b) =>
      (match Holds(a, s, op, values, p)
       case Err(e) => Err(e)
       case Ok(x) =>
         match Holds(b, s, op, values, p)
         case Err(e) => Err(e)
         case Ok(y) => Ok(x == y))
  }

  function Run(c: Check, s: State, op: string, values: seq<int>, p: Payload): Verdict
  {
    match c
    case Permit(reason) => Answer(true, reason)
    case Judge(f, reason) =>
      (match Holds(f, s, op, values, p)
       case Err(e) => Raised(e)
       case Ok(b) => Answer(b, reason))
    case Branch(f, yes, no) =>
      (match Holds(f, s, op, values, p)
       case Err(e) => Raised(e)
       case Ok(b) => if b then Run(yes, s, op, values, p) else Run(no, s, op, values, p))
    case Pair(next) => if |values| != 2 then Raised(UnpackError) else Run(next, s, op, values, p)
  }

  /** The check of the first rule whose label test the label passes. */
  function FirstMatch(rules: seq<Rule>, op: string): (r: Option<Check>)
    ensures r.Some? ==> exists i :: 0 <= i < |rules| && Matches(rules[i].when, op) && rules[i].check == r.value
                                   && forall k :: 0 <= k < i ==> !Matches(rules[k].when, op)
    ensures r.None? ==> forall i :: 0 <= i < |rules| ==> !Matches(rules[i].when, op)
  {
    if rules == [] then None
    else if Matches(rules[0].when, op) then Some(rules[0].check)
    else FirstMatch(rules[1..], op)
  }

  const GraphRules: seq<Rule> := [
    Rule(Word("Insert"),
      Pair(Branch(BothAreGraphNodes,
        Branch(Carries(Exact("edges")), Judge(EdgeListed, EdgeNotAdded), Permit(Permissive)),
        Branch(SameOperands, Require(AnyCase("error"), SelfLoop), Permit(Permissive))))),
    Rule(Word("Delete"),
      Branch(Both(Carries(Exact("message")), Carries(AnyCase("not exist"))),
        Permit(HandledMissingNode),
        Judge(Not(FirstIsGraphNode), BadDeletion))),
    Rule(Either(Word("Check"), FoldedWord("path")), Require(Exact("pathExists"), NoPathResult))
  ]

  const TreeRules: seq<Rule> := [
    Rule(Either(Word("Search"), Word("Find")),
      Judge(Same(Both(Carries(AnyCase("found")), Carries(AnyCase("true"))), FirstIsTreeNode), SearchWrong)),
    Rule(Word("Insert"),
      Branch(FirstIsTreeNode, Require(AnyCase("error"), Duplicate), Require(Exact("structure"), NoTreeStructure))),
    Rule(Word("Delete"),
      Branch(FirstIsTreeNode, Require(Exact("structure"), NoTreeStructure), Require(AnyCase("not found"), TreeMissingValue)))
  ]

  /** One rule for all three list edits. */
  const ListRules: seq<Rule> := [
    Rule(Either(Word("Insert"), Either(Word("Delete"), Word("Update"))),
      Branch(LabelSays(FoldedWord("position")),
        Branch(FirstPastListEnd, Require(AnyCase("out of bounds"), OutOfBounds), Require(Exact("structure"), NoListStructure)),
        Require(Exact("structure"), NoListStructure)))
  ]

  const QueueRules: seq<Rule> := [
    Rule(Word("Dequeue"),
      Branch(QueueIsEmpty, Require(AnyCase("empty"), EmptyQueue), Require(Exact("dequeuedValue"), NoDequeued))),
    Rule(Word("Enqueue"), Require(Exact("updatedQueue"), NoUpdatedQueue)),
    Rule(Word("Display"), Require(AnyCase("queue"), NoQueueContents)),
    Rule(Either(Word("Check"), FoldedWord("exists")), Require(AnyCase("exists"), NoExistence))
  ]

  function Table(k: Kind): seq<Rule>
  {
    match k
    case Graph => GraphRules
    case Tree => TreeRules
    case LinkedList => ListRules
    case Queue => QueueRules
  }

  /** The table-driven validator: an unusable payload is invalid; otherwise the
      first matching rule decides, and an unmatched label passes by default. */
  function Decide(s: State, k: Kind, op: string, values: seq<int>, j: Option<Payload>): Verdict
  {
    if !Usable(j) then Answer(false, InvalidJson)
    else
      match FirstMatch(Table(k), op)
      case None => Answer(true, Permissive)
      case Some(c) => Run(c, s, op, values, j.value)
  }
}

=== FILE: scenarios.dfy ===
/** Worked runs of the validator on concrete baselines and responses, including
    the effect of the driver's seeding order. */
module Scenarios {
  import opened Wrappers
  import opened Text
  import opened Baseline
  import opened Extract
  import opened Validate
  import opened Rules

  /** Python's rendering of the parsed response, with no graph update. */
  function Plain(text: string): Payload
  {
    Payload(text, Listed([]))
  }

  /** The Enqueue answer of the worked queue run names the updated queue. */
  const EnqueueAnswer: Payload := Plain("{'updatedQueue': [5, 12, 7, 30, 2, 99]}")

  lemma EnqueueAnswerShape()
    ensures EnqueueAnswer.text != EmptyObject
    ensures Mentions(EnqueueAnswer, "updatedQueue")
  {
    assert EnqueueAnswer.text == "{'" + "updatedQueue" + "': [5, 12, 7, 30, 2, 99]}";
    ContainsInfix("{'", "updatedQueue", "': [5, 12, 7, 30, 2, 99]}");
  }

  lemma EnqueueLabel()
    ensures !Contains("Enqueue value(s) 99", "Dequeue") && Contains("Enqueue value(s) 99", "Enqueue")
  {
    MissingCharNotContained("Enqueue value(s) 99", "Dequeue", 'D');
    ContainsAt("Enqueue value(s) 99", "Enqueue", 0);
  }

  /** A queue whose baseline is [5, 12, 7, 30, 2]: an Enqueue answer showing
      the updated queue passes. */
  lemma EnqueueScenario(s: State)
    requires s.queueValues == [5, 12, 7, 30, 2]
    ensures ValidateQueue(s, "Enqueue value(s) 99", Some(EnqueueAnswer)) == Answer(true, NoUpdatedQueue)
  {
    EnqueueAnswerShape();
    EnqueueLabel();
    QueueRule(s, "Enqueue value(s) 99", EnqueueAnswer);
  }

  /** The Dequeue answer of the worked queue run claims the queue is empty. */
  const EmptyClaim: Payload := Plain("{'message': 'queue is empty'}")

  lemma EmptyClaimShape()
    ensures EmptyClaim.text != EmptyObject
    ensures !Mentions(EmptyClaim, "dequeuedValue")
  {
    MissingCharNotContained(EmptyClaim.text, "dequeuedValue", 'V');
  }

  /** On the same queue, a Dequeue answer claiming the queue is empty fails: the
      baseline is not empty and the answer names no dequeued value. */
  lemma DequeueScenario(s: State)
    requires s.queueValues == [5, 12, 7, 30, 2]
    ensures ValidateQueue(s, "Dequeue value(s) 99", Some(EmptyClaim)) == Answer(false, NoDequeued)
  {
    EmptyClaimShape();
    ContainsAt("Dequeue value(s) 99", "Dequeue", 0);
    QueueRule(s, "Dequeue value(s) 99", EmptyClaim);
  }

  /** The answer of the worked tree run reports a duplicate. */
  const DuplicateAnswer: Payload := Plain("{'error': 'duplicate value'}")

  lemma DuplicateAnswerShape()
    ensures DuplicateAnswer.text != EmptyObject
    ensures MentionsFolded(DuplicateAnswer, "error")
  {
    var text := DuplicateAnswer.text;
    var low := Lower(text);
    assert text[2] == 'e' && text[3] == 'r' && text[4] == 'r' && text[5] == 'o' && text[6] == 'r';
    assert low[2] == 'e' && low[3] == 'r' && low[4] == 'r' && low[5] == 'o' && low[6] == 'r';
    assert low[2..7] == "error";
    ContainsAt(low, "error", 2);
  }

  lemma InsertLabel()
    ensures !Contains("Insert value(s) 20", "Search") && !Contains("Insert value(s) 20", "Find")
    ensures Contains("Insert value(s) 20", "Insert")
  {
    MissingCharNotContained("Insert value(s) 20", "Search", 'S');
    MissingCharNotContained("Insert value(s) 20", "Find", 'F');
    ContainsAt("Insert value(s) 20", "Insert", 0);
  }

  /** A tree whose baseline nodes are {50, 20, 80}: inserting the duplicate 20
      with an answer that reports an error passes. */
  lemma TreeDuplicateScenario(s: State)
    requires s.treeNodes == {50, 20, 80}
    ensures ValidateTree(s, "Insert value(s) 20", [20], Some(DuplicateAnswer)) == Answer(true, Duplicate)
  {
    DuplicateAnswerShape();
    InsertLabel();
    TreeInsertRule(s, "Insert value(s) 20", 20, [], DuplicateAnswer);
  }

  /** The graph edge rule compares ordered pairs: between baseline nodes 1 and 2,
      an answer listing only the edge 2 -> 1 fails an Insert of 1 -> 2. */
  lemma GraphInsertIsDirected(s: State)
    requires Initialize(Unseeded, Graph, [1, 2]) == Ok(s)
    ensures ValidateGraph(s, "Insert edge", [1, 2],
                    Some(Payload("{'graphUpdate': {'edges': [{'from': 2, 'to': 1}]}}", Listed([Edge(2, 1)]))))
        == Answer(false, EdgeNotAdded)
  {
    assert Snapshot(s, Graph) == Expected(Graph, [1, 2]);
    assert 1 in s.graphNodes && 2 in s.graphNodes;
    ContainsAt("Insert edge", "Insert", 0);
    assert "{'graphUpdate': {'edges': [{'from': 2, 'to': 1}]}}"
        == "{'graphUpdate': {'" + "edges" + "': [{'from': 2, 'to': 1}]}}";
    ContainsInfix("{'graphUpdate': {'", "edges", "': [{'from': 2, 'to': 1}]}}");
  }

  /** The search answer used below: found, in Python's rendering of `True`. */
  const FoundAnswer: Payload := Plain("{'found': True}")

  lemma FoundAnswerClaimsFound()
    ensures FoundAnswer.text != EmptyObject
    ensures MentionsFolded(FoundAnswer, "found") && MentionsFolded(FoundAnswer, "true")
  {
    var low := Lower(FoundAnswer.text);
    assert low[2..7] == "found";
    ContainsAt(low, "found", 2);
    assert low[10..14] == "true";
    ContainsAt(low, "true", 10);
  }

  /** A search answered with `found: True` is judged by whether the searched
      value is a baseline tree node. */
  lemma SearchFound(s: State, v: int)
    ensures ValidateTree(s, "Search", [v], Some(FoundAnswer)) == Answer(v in s.treeNodes, SearchWrong)
  {
    ContainsAt("Search", "Search", 0);
    FoundAnswerClaimsFound();
  }

  /** As written, the driver seeds all four kinds from each pool in turn, so the
      tree baseline is built from the queue pool: whenever the first tree value is
      not also a queue value, a correct answer that it was found is judged wrong. */
  lemma AsWrittenSeedingMisjudgesSearch(tree: seq<int>, graph: seq<int>, list: seq<int>, queue: seq<int>, s: State)
    requires tree != [] && graph != [] && list != [] && queue != []
    requires SeedAsWritten(tree, graph, list, queue) == Ok(s)
    requires tree[0] !in queue
    ensures tree[0] !in s.treeNodes
    ensures ValidateTree(s, "Search", [tree[0]], Some(FoundAnswer)) == Answer(false, SearchWrong)
  {
    assert Snapshot(s, Tree) == Expected(Tree, queue);
    SearchFound(s, tree[0]);
  }

  /** Seeding each kind from its own pool, the same answer is judged correct. */
  lemma SeedEachKindJudgesSearch(tree: seq<int>, graph: seq<int>, list: seq<int>, queue: seq<int>, s: State)
    requires SeedEachKind(tree, graph, list, queue) == Ok(s)
    ensures tree != [] && tree[0] in s.treeNodes
    ensures ValidateTree(s, "Search", [tree[0]], Some(FoundAnswer)) == Answer(true, SearchWrong)
  {
    assert Snapshot(s, Tree) == Expected(Tree, tree);
    SearchFound(s, tree[0]);
  }
}

=== FILE: tally.dfy ===
/** The result counter (`ValidationResults`): every verdict is counted, and every
    failed one is also kept as a record, in question order. */
module Tally {

  /** One failed question as kept for the report. */
  datatype Record = Record(number: int, structure: string, question: string, response: string, reason: string)

  /** The failed records and the two running totals. */
  datatype Results = Results(incorrect: seq<Record>, total: nat, incorrectCount: nat)

  /** The counter right after construction. */
  const Fresh: Results := Results([], 0, 0)

  /** The counter invariant: one record per counted failure, never more failures than questions. */
  predicate Consistent(r: Results)
  {
    r.incorrectCount == |r.incorrect| <= r.total
  }

  /** `add_result`: count the question; a failed verdict is also counted as
      incorrect and appended as a record. */
  function AddResult(r: Results, number: int, structure: string, valid: bool,
                     question: string, response: string, reason: string): (r': Results)
    ensures r'.total == r.total + 1
    ensures valid ==> r'.incorrect == r.incorrect && r'.incorrectCount == r.incorrectCount
    ensures !valid ==> (r'.incorrectCount == r.incorrectCount + 1
      && r'.incorrect == r.incorrect + [Record(number, structure, question, response, reason)])
    ensures Consistent(r) ==> Consistent(r')
  {
    if valid then r.(total := r.total + 1)
    else Results(r.incorrect + [Record(number, structure, question, response, reason)],
                 r.total + 1, r.incorrectCount + 1)
  }

  /** One validated question as the driver hands it to the counter. */
  datatype Outcome = Outcome(number: int, structure: string, valid: bool,
                             question: string, response: string, reason: string)

  /** The counter after the driver has added the outcomes one by one, in order. */
  function RecordAll(outs: seq<Outcome>): Results
  {
    if outs == [] then Fresh
    else
      var o := outs[|outs| - 1];
      AddResult(RecordAll(outs[..|outs| - 1]), o.number, o.structure, o.valid, o.question, o.response, o.reason)
  }

  /** The failed outcomes, as records, in the order they occurred. */
  function Failures(outs: seq<Outcome>): seq<Record>
  {
    if outs == [] then []
    else
      var o := outs[0];
      (if o.valid then [] else [Record(o.number, o.structure, o.question, o.response, o.reason)])
      + Failures(outs[1..])
  }

  lemma {:induction false} FailuresAppend(outs: seq<Outcome>, o: Outcome)
    ensures Failures(outs + [o])
         == Failures(outs) + (if o.valid then [] else [Record(o.number, o.structure, o.question, o.response, o.reason)])
  {
    if outs != [] {
      assert (outs + [o])[1..] == outs[1..] + [o];
      FailuresAppend(outs[1..], o);
    } else {
      assert [o][1..] == [];
    }
  }

  /** After any run the counter has seen every question, holds exactly the failed
      ones in order, and keeps its invariant. */
  lemma {:induction false} RecordAllTallies(outs: seq<Outcome>)
    ensures RecordAll(outs).total == |outs|
    ensures RecordAll(outs).incorrect == Failures(outs)
    ensures Consistent(RecordAll(outs))
  {
    if outs != [] {
      var init := outs[..|outs| - 1];
      var o := outs[|outs| - 1];
      RecordAllTallies(init);
      assert init + [o] == outs;
      FailuresAppend(init, o);
    }
  }
}

=== FILE: text.dfy ===
/** The string operations the validator relies on: substring membership
    (`w in s`), ASCII lowercasing (`s.lower()`), and the first/last index of a
    character (`s.find(c)`, `s.rfind(c)`, both -1 when absent). */
module Text {

  /** w occurs in s starting at index i. */
  predicate OccursAt(s: string, w: string, i: int)
  {
    0 <= i && i + |w| <= |s| && s[i..i + |w|] == w
  }

  /** `w in s`: w occurs as a contiguous piece of s (the empty word occurs everywhere). */
  predicate Contains(s: string, w: string)
  {
    exists i | 0 <= i <= |s| - |w| :: OccursAt(s, w, i)
  }

  /** An occurrence at a known index is enough for membership. */
  lemma ContainsAt(s: string, w: string, i: int)
    requires OccursAt(s, w, i)
    ensures Contains(s, w)
  {
  }

  /** A word holding a character the text lacks cannot occur in it. */
  lemma MissingCharNotContained(s: string, w: string, c: char)
    requires c in w && c !in s
    ensures !Contains(s, w)
  {
  }

  /** A word placed between two pieces of text occurs in the result. */
  lemma ContainsInfix(pre: string, w: string, post: string)
    ensures Contains(pre + w + post, w)
  {
    assert OccursAt(pre + w + post, w, |pre|);
  }

  /** ASCII lowercasing of one character; every other character is kept. */
  function LowerChar(c: char): char
  {
    if 'A' <= c <= 'Z' then (c as int - 'A' as int + 'a' as int) as char else c
  }

  /** `s.lower()` restricted to ASCII letters. The ensures spell the
      comprehension out pointwise for the solver; what lowering means is stated
      by `LowerCharacterised` and `LowerIdempotent`. */
  function Lower(s: string): (r: string)
    ensures |r| == |s|
    ensures forall i :: 0 <= i < |s| ==> r[i] == LowerChar(s[i])
  {
    seq(|s|, i requires 0 <= i < |s| => LowerChar(s[i]))
  }

  /** What lowering does: the length is kept, no capital survives, a capital
      moves 32 code points down to its small letter, and every other character
      is kept. */
  lemma LowerCharacterised(s: string)
    ensures |Lower(s)| == |s|
    ensures forall i :: 0 <= i < |s| ==> !('A' <= Lower(s)[i] <= 'Z')
    ensures forall i :: 0 <= i < |s| && 'A' <= s[i] <= 'Z' ==> Lower(s)[i] as int == s[i] as int + 32
    ensures forall i :: 0 <= i < |s| && !('A' <= s[i] <= 'Z') ==> Lower(s)[i] == s[i]
  {
  }

  /** Lowering twice is lowering once. */
  lemma LowerIdempotent(s: string)
    ensures Lower(Lower(s)) == Lower(s)
  {
  }

  /** Lowercasing commutes with taking a slice. */
  lemma LowerSlice(s: string, i: int, j: int)
    requires 0 <= i <= j <= |s|
    ensures Lower(s)[i..j] == Lower(s[i..j])
  {
  }

  /** A case-sensitive match of a lowercase word is also a match in the lowercased text:
      the `.lower()` searches of the validator accept everything the plain searches accept. */
  lemma ContainsLowered(s: string, w: string)
    requires Lower(w) == w
    requires Contains(s, w)
    ensures Contains(Lower(s), w)
  {
    var i :| 0 <= i <= |s| - |w| && OccursAt(s, w, i);
    LowerSlice(s, i, i + |w|);
    assert OccursAt(Lower(s), w, i);
    ContainsAt(Lower(s), w, i);
  }

  /** `s.find(c)`: the index of the first c in s, or -1. */
  function Find(s: string, c: char): (r: int)
    ensures -1 <= r < |s|
    ensures r == -1 <==> c !in s
    ensures 0 <= r ==> s[r] == c && forall i :: 0 <= i < r ==> s[i] != c
  {
    if s == [] then -1
    else if s[0] == c then 0
    else
      var k := Find(s[1..], c);
      if k == -1 then -1 else k + 1
  }

  /** `s.rfind(c)`: the index of the last c in s, or -1. */
  function RFind(s: string, c: char): (r: int)
    ensures -1 <= r < |s|
    ensures r == -1 <==> c !in s
    ensures 0 <= r ==> s[r] == c && c !in s[r + 1..]
  {
    if s == [] then -1
    else if s[|s| - 1] == c then |s| - 1
    else
      var k := RFind(s[..|s| - 1], c);
      if k == -1 then -1
      else
        assert s[k + 1..] == s[..|s| - 1][k + 1..] + [s[|s| - 1]];
        k
  }
}

=== FILE: validate.dfy ===
/** The rule validators (`validate_*_operation`) and their dispatcher
    (`validate_response`). Each validator first rejects an unusable payload, then
    picks the first rule whose keyword occurs in the operation label, and answers
    with a verdict and the reason string fixed for that rule. */
module Validate {
  import opened Wrappers
  import opened Text
  import opened Baseline
  import opened Extract

  /** `(bool, reason)`, or the exception the validator lets escape. */
  datatype Verdict = Answer(valid: bool, reason: string) | Raised(fault: Fault)

  const InvalidJson: string := "Invalid JSON response"
  const Permissive: string := "Operation appears valid"
  const UnknownStructure: string := "Unknown structure type"

  const EdgeNotAdded: string := "Edge not properly added"
  const SelfLoop: string := "Should indicate self-loop not allowed"
  const HandledMissingNode: string := "Correctly handled non-existent node"
  const BadDeletion: string := "Incorrect deletion response"
  const NoPathResult: string := "Missing path check result"

  const SearchWrong: string := "Search result incorrect"
  const Duplicate: string := "Should indicate duplicate value"
  const NoTreeStructure: string := "Missing updated tree structure"
  const TreeMissingValue: string := "Should indicate non-existent value"

  const OutOfBounds: string := "Should indicate out of bounds"
  const NoListStructure: string := "Missing updated list structure"

  const EmptyQueue: string := "Should indicate empty queue"
  const NoDequeued: string := "Missing dequeued value"
  const NoUpdatedQueue: string := "Missing updated queue state"
  const NoQueueContents: string := "Missing queue contents"
  const NoExistence: string := "Missing existence check result"

  /** `kw in str(json_resp)` */
  predicate Mentions(p: Payload, kw: string)
  {
    Contains(p.text, kw)
  }

  /** `kw in str(json_resp).lower()` */
  predicate MentionsFolded(p: Payload, kw: string)
  {
    Contains(Lower(p.text), kw)
  }

  /** The graph rules: Insert, then Delete, then Check/path, else the permissive default. */
  function ValidateGraph(s: State, op: string, values: seq<int>, j: Option<Payload>): (r: Verdict)
    ensures !Usable(j) ==> r == Answer(false, InvalidJson)
    ensures r.Raised? ==> Usable(j) && (Contains(op, "Insert") || Contains(op, "Delete"))
    ensures r.Answer? && !r.valid ==> r.reason in {InvalidJson, EdgeNotAdded, SelfLoop, BadDeletion, NoPathResult}
  {
    if !Usable(j) then Answer(false, InvalidJson)
    else
      var p := j.value;
      if Contains(op, "Insert") then
        if |values| != 2 then Raised(UnpackError)
        else
          var node1, node2 := values[0], values[1];
          if node1 in s.graphNodes && node2 in s.graphNodes then
            if Mentions(p, "edges") then
              match p.update
              case Malformed => Raised(EdgeShapeError)
              case Listed(es) => Answer(Edge(node1, node2) in es, EdgeNotAdded)
            else Answer(true, Permissive)
          else if node1 == node2 then Answer(MentionsFolded(p, "error"), SelfLoop)
          else Answer(true, Permissive)
      else if Contains(op, "Delete") then
        if Mentions(p, "message") && MentionsFolded(p, "not exist") then Answer(true, HandledMissingNode)
        else if values == [] then Raised(IndexError)
        else Answer(values[0] !in s.graphNodes, BadDeletion)
      else if Contains(op, "Check") || Contains(Lower(op), "path") then
        Answer(Mentions(p, "pathExists"), NoPathResult)
      else Answer(true, Permissive)
  }

  /** The binary-search-tree rules: Search/Find, then Insert, then Delete. */
  function ValidateTree(s: State, op: string, values: seq<int>, j: Option<Payload>): (r: Verdict)
    ensures !Usable(j) ==> r == Answer(false, InvalidJson)
    ensures r.Raised? <==> (Usable(j) && values == []
      && (Contains(op, "Search") || Contains(op, "Find") || Contains(op, "Insert") || Contains(op, "Delete")))
    ensures r.Raised? ==> r.fault == IndexError
  {
    if !Usable(j) then Answer(false, InvalidJson)
    else
      var p := j.value;
      if Contains(op, "Search") || Contains(op, "Find") then
        if values == [] then Raised(IndexError)
        else
          var found := MentionsFolded(p, "found") && MentionsFolded(p, "true");
          Answer(found == (values[0] in s.treeNodes), SearchWrong)
      else if Contains(op, "Insert") then
        if values == [] then Raised(IndexError)
        else if values[0] in s.treeNodes then Answer(MentionsFolded(p, "error"), Duplicate)
        else Answer(Mentions(p, "structure"), NoTreeStructure)
      else if Contains(op, "Delete") then
        if values == [] then Raised(IndexError)
        else if values[0] !in s.treeNodes then Answer(MentionsFolded(p, "not found"), TreeMissingValue)
        else Answer(Mentions(p, "structure"), NoTreeStructure)
      else Answer(true, Permissive)
  }

  /** The rule shared by the linked-list Insert, Delete and Update branches: a
      position at or past the end must be reported out of bounds; any other
      change must come with the updated structure. */
  function PositionRule(s: State, op: string, values: seq<int>, p: Payload): Verdict
  {
    if Contains(Lower(op), "position") then
      if values == [] then Raised(IndexError)
      else if values[0] >= |s.listValues| then Answer(MentionsFolded(p, "out of bounds"), OutOfBounds)
      else Answer(Mentions(p, "structure"), NoListStructure)
    else Answer(Mentions(p, "structure"), NoListStructure)
  }

  /** The linked-list rules. The source repeats one body under Insert, Delete and
      Update; whichever of them matches first, the same rule applies. */
  function ValidateLinkedList(s: State, op: string, values: seq<int>, j: Option<Payload>): (r: Verdict)
    ensures !Usable(j) ==> r == Answer(false, InvalidJson)
    ensures r.Raised? <==> (Usable(j) && values == [] && Contains(Lower(op), "position")
      && (Contains(op, "Insert") || Contains(op, "Delete") || Contains(op, "Update")))
    ensures r.Raised? ==> r.fault == IndexError
  {
    if !Usable(j) then Answer(false, InvalidJson)
    else if Contains(op, "Insert") then PositionRule(s, op, values, j.value)
    else if Contains(op, "Delete") then PositionRule(s, op, values, j.value)
    else if Contains(op, "Update") then PositionRule(s, op, values, j.value)
    else Answer(true, Permissive)
  }

  /** The queue rules: Dequeue, Enqueue, Display, Check/exists. Operands are not consulted. */
  function ValidateQueue(s: State, op: string, j: Option<Payload>): (r: Verdict)
    ensures !Usable(j) ==> r == Answer(false, InvalidJson)
    ensures r.Answer?
    ensures r.reason == Permissive ==> r.valid
  {
    if !Usable(j) then Answer(false, InvalidJson)
    else
      var p := j.value;
      if Contains(op, "Dequeue") then
        if |s.queueValues| == 0 then Answer(MentionsFolded(p, "empty"), EmptyQueue)
        else Answer(Mentions(p, "dequeuedValue"), NoDequeued)
      else if Contains(op, "Enqueue") then Answer(Mentions(p, "updatedQueue"), NoUpdatedQueue)
      else if Contains(op, "Display") then Answer(MentionsFolded(p, "queue"), NoQueueContents)
      else if Contains(op, "Check") || Contains(Lower(op), "exists") then
        Answer(MentionsFolded(p, "exists"), NoExistence)
      else Answer(true, Permissive)
  }

  /** The structure names the driver uses. */
  function KindNamed(structure: string): (r: Option<Kind>)
  {
    if structure == "graph" then Some(Graph)
    else if structure == "tree" then Some(Tree)
    else if structure == "linked_list" then Some(LinkedList)
    else if structure == "queue" then Some(Queue)
    else None
  }

  /** The validator of one kind applied to an already extracted payload. */
  function ValidateKind(s: State, k: Kind, op: string, values: seq<int>, j: Option<Payload>): (r: Verdict)
    ensures !Usable(j) ==> r == Answer(false, InvalidJson)
  {
    match k
    case Graph => ValidateGraph(s, op, values, j)
    case Tree => ValidateTree(s, op, values, j)
    case LinkedList => ValidateLinkedList(s, op, values, j)
    case Queue => ValidateQueue(s, op, j)
  }

  /** `validate_response`: an unknown structure name is rejected before the
      response is looked at; otherwise the payload is extracted and the kind's
      rules decide. */
  function ValidateResponse(s: State, structure: string, op: string, values: seq<int>,
                            response: string, parse: string -> Option<Payload>): (r: Verdict)
    ensures KindNamed(structure).None? ==> r == Answer(false, UnknownStructure)
    ensures KindNamed(structure).Some? && ('{' !in response || '}' !in response) ==> r == Answer(false, InvalidJson)
    ensures KindNamed(structure).Some? && parse([]) == None && ClosersFirst(response) ==> r == Answer(false, InvalidJson)
    ensures r.Raised? ==> KindNamed(structure) in {Some(Graph), Some(Tree), Some(LinkedList)}
  {
    match KindNamed(structure)
    case None => Answer(false, UnknownStructure)
    case Some(k) => ValidateKind(s, k, op, values, CleanJson(response, parse))
  }
}

=== FILE: wrappers.dfy ===
/** The Option and Result datatypes, and the faults the validator core can raise. */
module Wrappers {

  /** A value that may be absent; Python's `None` where the source returns it. */
  datatype Option<+T> = None | Some(value: T)

  /** Either a value or the exception the source would raise instead. */
  datatype Result<+T, +E> = Ok(value: T) | Err(error: E)

  /** The Python exceptions the validator core can raise and does not catch. */
  datatype Fault =
    | IndexError      // `values[0]` on an empty operand list
    | UnpackError     // `node1, node2 = values` when there are not exactly two operands
    | EdgeShapeError  // a `graphUpdate` / `edges` shape on which the edge comprehension raises
}
